=== FILE: README.md ===
# ssr-render-page in Dafny

This project models `ssr-render-page`. It is a Node module that renders an HTML page on the server by loading it into a DOM engine and letting the page's own scripts run. The page tells the renderer it is done by calling `window.finishRender()`. The factory `SSRResourceConstructor` captures a configuration: the origin, the resource name (mount path), the HTML file, the development flag, an optional HTTP server and the waiting time. It returns `renderPage(pathname)`, which resolves to `{ html, statusCode }`.

The model covers the deterministic core of that file:

- **URL building** (`PageUrl`, on `Text`). `getPageUrl` strips one leading '/' from the pathname and one from the prefix, joins them as `prefix/pathname`, and resolves the result against the origin. The overridden `window.fetch` does the same with an empty prefix. Resolution is modelled for a restricted fragment of the basic URL parser of section 4.4 of the WHATWG URL Standard, where it agrees with sections 5.2.2–5.2.3 of RFC 3986. The fragment is: an `http` or `https` origin; a host the host parser keeps as written (non-empty labels of lower-case letters, digits and '-', no `xn--` label, and a last label starting with a letter, so no IPv4 form); an optional non-default port; and references made of unreserved and sub-delimiter characters, ':', '@' and '/', with no "." or ".." segments, no network-path reference (one starting with `//`), and no ':' in the first segment of a relative reference. Anything outside the fragment resolves to `None`, which means "not modelled", not "fails".
- **The render race** (`RenderRace`). The events reaching one render form a trace:
  - `SetStatus(c)`: the page writes `window.statusCode`.
  - `Finish`: the page calls `window.finishRender()`, which emits 'finish'.
  - `Arm`: the coordinator starts the timer and registers the one-shot 'finish' listener. These happen with no await in between.
  - `TimerFires`.

  A small state machine runs the trace. It is proved equal to an independent reference: the first terminal event after the first `Arm` decides, and the status is the last write. The outcome is a timeout diagnostic with status 500, or the serialized DOM with the status the page last wrote (200 by default).
- **Live reload** (`LiveReload`, `ClientScript`):
  - normalisation of the resource name;
  - routing of WebSocket upgrades on a caller's server;
  - the port cell that the background start of the channel fills in;
  - the client-script templating.

  The templating is done with `String.prototype.replace`, modelled with its GetSubstitution `$` patterns (section 22.1.3.19.1 of ECMA-262). The wb-inject.js template is modelled character for character, CRLF line endings included.
- **Assembly** (`Renderer`). The configuration defaults, one `renderPage` session, and the end-to-end properties.

Effects are parameters of the model:

- the DOM engine's serialization;
- the text read from wb-inject.js;
- the port cell's value when the render reads it;
- the order in which events reach the render;
- the port of a caller's server.

## Model

| member | source | states |
|---|---|---|
| Text.StripLeadingSlash | index.js:22-23 | the result is the input minus its first character exactly when the input starts with '/', and the input itself otherwise |
| Text.IndexOf | index.js:70-71 | the position found is an occurrence of the pattern and no earlier position is one; `None` only when the pattern occurs nowhere |
| Text.Decimal | index.js:70 | `wsPort.toString()` is a non-empty string of decimal digits with no leading zero except for 0 itself |
| Text.DecimalRoundTrip | index.js:70 | reading the decimal text back gives the port number again |
| PageUrl.PageReference | index.js:21-24 | the reference is the prefix without one leading '/', then '/', then the pathname without one leading '/', and nothing else |
| PageUrl.StripKeepsSecondSlash | index.js:22-23 | only one leading '/' is stripped: a pathname starting with "//" still starts with '/' afterwards, and it loses exactly one character |
| PageUrl.LeadingSlashIsOptional | index.js:21-24 | adding one leading '/' to the pathname or to the prefix does not change the page URL |
| PageUrl.SameReferenceIff | index.js:21-24 | with a fixed prefix, two pathnames give the same URL reference iff they are equal once one leading '/' is stripped from each |
| PageUrl.DefaultShapes | index.js:21-24 | the default pathname '/' gives a reference ending in '/', and the default empty prefix gives one starting with '/' |
| PageUrl.Resolve | index.js:24 | resolution is defined exactly on the modelled fragment, and every defined result starts with the serialized origin followed by '/' |
| PageUrl.NumberEndedHostExcluded | index.js:24 | no page URL is claimed for an origin whose host ends in a label starting with a digit, such as `127.1`, `256.0.0.1` or `example.1a`; every host the IPv4 parser rewrites or rejects is in this class, and the model excludes the whole class |
| PageUrl.GetPageUrl | index.js:21-25 | the page URL is defined exactly when the origin and the reference are in the fragment, and it then starts with the origin and '/' |
| PageUrl.PageUrlEndsWithPathname | index.js:21-25 | a page URL ends with the requested pathname less one leading '/' |
| PageUrl.PageUrlOnOrigin | index.js:21-25 | when neither stripped argument starts with '/' and the rest is in the fragment, the page URL is `origin/pathname'` with an empty prefix and `origin/prefix'/pathname'` otherwise, where ' is one leading '/' stripped: the page always stays on the configured origin |
| PageUrl.ExamplePageUrl | index.js:21-25 | origin `https://example.com`, pathname `/page` and prefix `app` give `https://example.com/app/page` |
| PageUrl.FetchStaysOnOrigin | index.js:58-59 | the fetch reference is a network-path reference (`//host...`, leaving the origin) iff the url still starts with '/' after one is stripped; inside the fragment every resolved url is `origin/url'` |
| PageUrl.ExampleFetchOfAbsoluteUrl | index.js:58-59 | on origin `http://localhost:3000`, a page fetch of the absolute-looking `https://cdn.example/x.js` requests `http://localhost:3000/https://cdn.example/x.js`, on the origin's host |
| RenderRace.Step | index.js:61-81 | a decided race stays decided with the same winner, and only a status write changes the status cell |
| RenderRace.Run | index.js:81 | running any trace from a decided state keeps the decision |
| RenderRace.RaceFollowsReference | index.js:75-81 | the state machine's phase after any trace is the reference phase: building until the first `Arm`, then decided by the first `Finish` or `TimerFires` after it |
| RenderRace.StatusCellIsLastWrite | index.js:63 | the status cell after any trace is the last value written, counted from the end, or the initial value when nothing was written |
| RenderRace.Outcome | index.js:82-83 | a timeout yields the diagnostic with status 500, and a completion yields the serialized DOM with the status cell |
| RenderRace.Settle | index.js:75-83 | a trace settles iff its reference phase is decided; the result is the diagnostic with 500 for a timeout and the DOM with the last written status (200 by default) for a completion |
| RenderRace.FinishBeforeArmIsLost | index.js:46-81 | a `Finish` emitted before the listener is registered has no effect on the race |
| RenderRace.EarlyFinishTimesOut | index.js:61-82 | a page that signals completion only before the race is armed times out with 500 |
| RenderRace.RepeatedFinishIsIdempotent | index.js:61-81 | two consecutive `Finish` events act as one, at any point of any trace and from any state |
| RenderRace.DecisionIsFinal | index.js:81 | events after the decision change neither the phase nor the winner |
| RenderRace.TimerGuaranteesSettlement | index.js:75-81 | once the timer fires after arming, the race is decided, so `renderPage` always settles |
| RenderRace.NoFinishMeansTimeout | index.js:75-82 | without a `Finish` after the first `Arm`, a settled render is the timeout diagnostic with 500; a `Finish` before arming is allowed and has no effect |
| RenderRace.UnwrittenStatusIs200 | index.js:63-83 | a completed render in which the page never wrote `statusCode` reports 200 |
| RenderRace.FinishWith404 | index.js:61-83 | a page that writes 404 and then finishes after arming renders its DOM with status 404 |
| LiveReload.NormalizeResourceName | index.js:94 | the normalised name always starts with '/', and it is '/' followed by the name without one leading '/' |
| LiveReload.NormalizeIsIdempotent | index.js:94 | normalising twice is normalising once |
| LiveReload.NormalizeUndoesStrip | index.js:94 | stripping one leading '/' and normalising gives the name back iff the name starts with '/' but not with "//" |
| LiveReload.RouteUpgrade | index.js:107-117 | the handler accepts an upgrade iff its pathname is '/' followed by the resource name less one leading '/' |
| LiveReload.Upgrade | index.js:97-117 | a private server takes every upgrade; a caller's server takes an upgrade iff its pathname is the normalised resource name, and destroys every other socket, one with no pathname included |
| LiveReload.OneAcceptedPathname | index.js:110 | a caller's server accepts at most one pathname |
| LiveReload.RoutingIgnoresLeadingSlash | index.js:94-110 | resource names `x` and `/x` route every upgrade the same way |
| LiveReload.PortCell | index.js:28-30 | the port cell is 0 outside development mode, 0 before the background start settles, and 0 after a failed start; it takes the started port otherwise |
| ClientScript.Expand | index.js:70-71 | the GetSubstitution expansion leaves a replacement without '$' as written |
| ClientScript.ExpandMatched | index.js:70-71 | the replacement `$&` puts the matched text back |
| ClientScript.ReplaceFirstWithoutOccurrence | index.js:70-71 | `replace` leaves a string without the pattern unchanged |
| ClientScript.ReplaceFirstKeepsContext | index.js:70-71 | without an occurrence the text is unchanged; otherwise the text before the first occurrence and the text after it are kept as they were |
| ClientScript.ReplaceFirstOnly | index.js:70-71 | for any replacement, `replace` on `a + pattern + b` with no earlier occurrence gives `a`, the expanded replacement, then `b` unchanged, later occurrences included |
| ClientScript.ReplaceFirstPlain | index.js:70-71 | a replacement without '$' is inserted as written in place of the first occurrence only |
| ClientScript.InjectionWithoutPlaceholders | index.js:69-71 | a template with neither placeholder is injected unchanged |
| ClientScript.ShippedInjection | index.js:67-71 | the shipped wb-inject.js has no `__RESOURCE_NAME__`, so after injection its socket opens `ws://localhost:<port>` and nothing else changes |
| ClientScript.ShippedIgnoresMountPath | index.js:71 | the resource name has no influence on the shipped client script |
| ClientScript.CorrectedInjection | index.js:69-71 | with the corrected template, the socket URL carries the port and the mount path without its leading '/' |
| Renderer.Configure | index.js:19 | a missing `development` defaults to true and a missing `waitingTime` to 8000; given values are kept |
| Renderer.ChannelListener | index.js:95-99 | the channel uses a private server iff no server was passed, and its port is the passed server's port or else the private one's |
| Renderer.SessionUrl | index.js:45 | the DOM's URL lies on the origin, and ends in '/' when no pathname is given |
| Renderer.PageFetchUrl | index.js:58-59 | a resolved fetch url is `origin/url'`, and a url that would still start with '/' after stripping is outside the modelled fragment (a network-path reference, which the source sends to another host) |
| Renderer.RenderPage | index.js:43-84 | a session whose URL does not resolve has no script and no result (the source rejects at index.js:45); otherwise a script is appended iff in development mode, and the session settles iff the race is decided, with the timeout or completion result of `Settle` |
| Renderer.DefaultPathname | index.js:43-45 | `renderPage()` is `renderPage('/')`, whose URL is the prefix followed by '/' |
| Renderer.ShippedScriptUsesPortCell | index.js:28-72 | in development mode the appended script connects to the port in the cell, which is port 0 while the start is unsettled or after it failed |
| Renderer.ScriptReachesChannel | index.js:119-125 | once the background start resolved, the appended script opens the passed server's port, or the private server's |
| Renderer.PrivateStartChangesScript | index.js:28-30 | with a private server bound to a non-zero port, a render after the start resolved appends a different script from one before it |
| Renderer.ShippedClientRejectedOnSharedServer | index.js:107-116 | the shipped template injects `ws://localhost:<port>` with no path, so the client requests pathname '/', and on a caller's server any resource name other than '' or '/' gets its socket destroyed |
| Renderer.CorrectedClientAcceptedOnSharedServer | index.js:107-116 | the corrected template injects `ws://localhost:<port>/<mount path>`, whose request pathname is exactly the normalised resource name, which the caller's server accepts |
| Renderer.SilentPageTimesOut | index.js:75-82 | a page that never calls `finishRender` renders the diagnostic with status 500 whenever its URL is in the modelled fragment; outside the fragment the model claims no result |

## Left out

- The DOM engine (`JSDOM.fromFile`, script execution, `insertAdjacentHTML`, `serialize`). These are parameters: the events a page produces and the serialized text. A DOM construction that rejects is not modelled.
- Network and file I/O: node-fetch, `fs.readFile`, `http.createServer`, `listen`, and the `ws` server's handshake. The template text and the ports are parameters.
- `setTimeout` and real time. The timer is the `TimerFires` event, so `waitingTime` is stored by `Configure` but is not used as a duration.
- The file watcher: chokidar, its broadcast of 'reload', and the browser's reload and reconnect loop. They are effects, with nothing to decide.
- `console.error` on a failed background start. Only its effect on the port cell (left at 0) is modelled.
- The full URL parser. Only the fragment described above is modelled: upper-case schemes, percent-encoding, IPv6 hosts, "." and ".." segments, query strings and fragments resolve to `None`.
- PageUrl.Resolve: an origin written with its scheme's default port, or with upper-case letters, is outside the modelled fragment (`None`), because the model takes origins already in serialized form.
- A fetch url starting with `\`. For http and https the parser reads `/\` like `//`, so such a url leaves the origin. Every url with `\` is outside the fragment, so no result is claimed for it.
- `fetch` called with a `Request` object or a non-string url, which throws in the source. Only string urls are modelled.
- Renderer.CorrectedClientAcceptedOnSharedServer: requires a resource name without '$', because `replace` would expand it as a substitution pattern.
- Renderer.CorrectedClientAcceptedOnSharedServer: requires a resource name with neither '@' nor `'`. The handler's `url.parse(request.url).pathname` (index.js:108) is treated as the identity on the request path. Node's legacy parser returns a path as sent only on its fast path. A path with '@' leaves that path, and so does one starting with `///`. Off the fast path, `//a@b` may be read as credentials and a host, and `'` is escaped as `%27`. Of the path characters modelled, only these two change the result, so with neither of them the identity holds.
- The status cell is modelled as an integer. The page may assign any JavaScript value to `window.statusCode`, such as a string, 404.5 or `undefined`, and index.js:83 returns it unchanged. Every property here passes the value through untouched.
- Renderer.SilentPageTimesOut: for a pathname that `new URL` accepts but that lies outside the modelled fragment, such as `/search?q=1`, the source renders the diagnostic with status 500 (index.js:45, 75-82). The model gives no result there, and claims nothing about that case.
- PageUrl.PageUrlOnOrigin: an argument that still starts with '/' after one is stripped, such as the prefix `//app`, is not covered. `PageUrl.GetPageUrl` still promises that any such URL in the fragment starts with the origin and '/'.
- ClientScript.CorrectedInjection: requires a resource name without '$', for the same reason.
- Renderer.RenderPage: a URL outside the fragment gives a session with no script and no result. That is exact when `new URL` throws, since `renderPage` then rejects at index.js:45. For a URL the source would build but the model does not compute, the model claims nothing.
- Renderer.PrivateStartChangesScript: takes as given that `listen(0)` binds a non-zero port. The port comes from the operating system and is not modelled.
- index.d.ts holds only type declarations, and is not part of this model.
- `server.address()` returning null for a caller's server that is not listening yet. The source then rejects, and the model covers this through the failed-start case of `PortCell`.

## Findings

| source | as written | input that shows it | evidently intended | confidence | as-written member | corrected member |
|---|---|---|---|---|---|---|
| wb-inject.js:3 | the client opens `ws://localhost:__PORT__`, which holds no `__RESOURCE_NAME__` even though index.js:71 substitutes one, so the upgrade request's pathname is always '/'; index.js:107-116 destroys every socket whose pathname is not the normalised resource name | `server` given and `resourceName: 'ssr'`: the handler compares '/' with '/ssr' and destroys the socket, so live reload never connects | the client opens `ws://localhost:__PORT__/__RESOURCE_NAME__`, so it requests `/<mount path>`, which the handler accepts | medium; not executed | Renderer.ShippedClientRejectedOnSharedServer | Renderer.CorrectedClientAcceptedOnSharedServer |

The as-written template is `ClientScript.Template`, and `ClientScript.ShippedInjection` proves what it turns into. The corrected template is `ClientScript.CorrectedTemplate`, and `ClientScript.CorrectedInjection` proves what it turns into. `Renderer.RenderPage` takes the template as a parameter, so either one can be rendered.

The intent is read from the code itself. index.js:71 substitutes a `__RESOURCE_NAME__` placeholder that the template lacks. index.js:110 routes upgrades on exactly the path that substitution would put in the socket URL.

A private server is not affected: `ws` without a `path` option accepts every upgrade.

=== FILE: client_script.dfy ===
/** The live-reload client script and its templating (index.js:67-72): the text of
    wb-inject.js, with `__PORT__` replaced by the port cell and `__RESOURCE_NAME__` by
    the mount path without its leading '/', each by `String.prototype.replace` with
    a string pattern. */
module ClientScript {
  import opened Wrappers
  import opened Text

  // ---------------------------------------------------------------------------
  // String.prototype.replace with a string pattern
  // ---------------------------------------------------------------------------

  /** GetSubstitution (section 22.1.3.19.1 of ECMA-262) for a string pattern, which
      has no captures: `$$` gives '$', `$&` the matched text, `$\`` the text before
      it and `$'` the text after it; `$n`, `$<` and any other '$' stay literal. */
  function Expand(replacement: string, before: string, matched: string, after: string): (r: string)
    ensures '$' !in replacement ==> r == replacement
    decreases |replacement|
  {
    if |replacement| == 0 then ""
    else if replacement[0] == '$' && |replacement| >= 2 && replacement[1] in {'$', '&', '`', '\''} then
      var piece :=
        match replacement[1]
        case '$' => "$"
        case '&' => matched
        case '`' => before
        case _ => after;
      piece + Expand(replacement[2..], before, matched, after)
    else
      assert [replacement[0]] + replacement[1..] == replacement;
      [replacement[0]] + Expand(replacement[1..], before, matched, after)
  }

  /** `s.replace(pattern, replacement)` (section 22.1.3.19 of ECMA-262): the first
      occurrence of `pattern`, if any, is replaced by the expanded replacement. */
  function ReplaceFirst(s: string, pattern: string, replacement: string): string
  {
    match IndexOf(s, pattern)
    case None => s
    case Some(i) =>
      s[..i] + Expand(replacement, s[..i], pattern, s[i + |pattern|..]) + s[i + |pattern|..]
  }

  /** `replace` touches only the first occurrence: the text before it and the text
      after it come back as they were, and without an occurrence nothing changes. */
  lemma {:induction false} ReplaceFirstKeepsContext(s: string, pattern: string, replacement: string)
    ensures IndexOf(s, pattern).None? ==> ReplaceFirst(s, pattern, replacement) == s
    ensures IndexOf(s, pattern).Some? ==>
      var r, i := ReplaceFirst(s, pattern, replacement), IndexOf(s, pattern).value;
      var tail := s[i + |pattern|..];
      && |r| >= i + |tail|
      && r[..i] == s[..i]
      && r[|r| - |tail|..] == tail
  {
  }

  /** `$&` in a replacement puts the matched text back. */
  lemma ExpandMatched(before: string, matched: string, after: string)
    ensures Expand("$&", before, matched, after) == matched
  {
    assert "$&"[2..] == "";
  }

  /** Without an occurrence of the pattern the text is returned unchanged. */
  lemma ReplaceFirstWithoutOccurrence(s: string, pattern: string, replacement: string)
    requires forall j: nat :: !OccursAt(s, pattern, j)
    ensures ReplaceFirst(s, pattern, replacement) == s
  {
  }

  /** Only the first occurrence is replaced: for `a + pattern + b` with no earlier
      occurrence, the result is `a`, the expanded replacement, then `b` as it was,
      further occurrences inside `b` included. */
  lemma {:induction false} ReplaceFirstOnly(a: string, pattern: string, b: string, replacement: string)
    requires forall j: nat :: j < |a| ==> !OccursAt(a + pattern + b, pattern, j)
    ensures ReplaceFirst(a + pattern + b, pattern, replacement)
         == a + Expand(replacement, a, pattern, b) + b
  {
    var s := a + pattern + b;
    assert OccursAt(s, pattern, |a|) by {
      assert s[|a|..|a| + |pattern|] == pattern;
    }
    assert IndexOf(s, pattern) == Some(|a|);
    assert s[..|a|] == a;
    assert s[|a| + |pattern|..] == b;
  }

  /** With a replacement free of '$', that replacement is inserted as written. */
  lemma {:induction false} ReplaceFirstPlain(a: string, pattern: string, b: string, replacement: string)
    requires forall j: nat :: j < |a| ==> !OccursAt(a + pattern + b, pattern, j)
    requires '$' !in replacement
    ensures ReplaceFirst(a + pattern + b, pattern, replacement) == a + replacement + b
  {
    ReplaceFirstOnly(a, pattern, b, replacement);
  }

  /** A pattern that starts with a character absent from `a` does not occur
      before the end of `a`. */
  lemma {:induction false} NoOccurrenceBefore(a: string, pattern: string, b: string, c: char)
    requires |pattern| > 0 && pattern[0] == c && c !in a
    ensures forall j: nat :: j < |a| ==> !OccursAt(a + pattern + b, pattern, j)
  {
  }

  // ---------------------------------------------------------------------------
  // The shipped client script
  // ---------------------------------------------------------------------------

  const PortPlaceholder: string := "__PORT__"
  const ResourcePlaceholder: string := "__RESOURCE_NAME__"

  // wb-inject.js line by line (its lines end in CR LF); line 3 is cut around the
  // URL the socket opens.
  const Line01: string := "if ('WebSocket' in window) {\r\n"
  const Line02: string := "    function startSocket() {        \r\n"
  const SocketOpen: string := "        var socket = new WebSocket('"
  const SocketUrlPrefix: string := "ws://localhost:"
  const SocketClose: string := "');\r\n"
  const Line04: string := "        socket.onclose = function () {\r\n"
  const Line05: string :=
    "            console.log('Socket"
    + " closed')\r\n"
  const Line06: string := "            startSocket()\r\n"
  const Line07: string := "        };\r\n"
  const Line08: string :=
    "        socket.onmessage = function"
    + " (msg) {\r\n"
  const Line09: string :=
    "            if (msg.data == 'reload')"
    + " window.location.reload();            \r\n"
  const Line10: string := "        };\r\n"
  const Line11: string :=
    "        console.log('Live reload"
    + " enabled.');\r\n"
  const Line12: string := "    }\r\n"
  const Line13: string := "    startSocket();\r\n"
  const Line14: string := "}\r\n"
  const Line15: string := "else {\r\n"
  const Line16: string :=
    "    console.error('Upgrade your"
    + " browser. This Browser is NOT supported"
    + " WebSocket for Live-Reloading.');\r\n"
  const Line17: string := "}\r\n"

  /** The rest of the script after the line that opens the socket. */
  const Rest: string := Line04 + Line05 + Line06 + Line07 + Line08 + Line09 + Line10 + Line11 + Line12 + Line13 + Line14 + Line15 + Line16 + Line17

  /** The script text with `url` as the URL its socket opens. */
  function ScriptWithSocketUrl(url: string): string
  {
    Line01 + Line02 + SocketOpen + url + SocketClose + Rest
  }

  /** wb-inject.js as shipped: the socket URL is `ws://localhost:__PORT__`. */
  const Template: string := ScriptWithSocketUrl(SocketUrlPrefix + PortPlaceholder)

  /** The mount path as substituted (index.js:71). */
  function MountPath(resourceName: string): string
  {
    StripLeadingSlash(resourceName)
  }

  /** The script injected into the page: `template` with the port and then the
      mount path substituted (index.js:69-71). */
  function InjectedScript(template: string, port: nat, resourceName: string): string
  {
    ReplaceFirst(ReplaceFirst(template, PortPlaceholder, Decimal(port)), ResourcePlaceholder, MountPath(resourceName))
  }

  /** A template with neither placeholder is injected unchanged. */
  lemma InjectionWithoutPlaceholders(template: string, port: nat, resourceName: string)
    requires forall j: nat :: !OccursAt(template, PortPlaceholder, j) && !OccursAt(template, ResourcePlaceholder, j)
    ensures InjectedScript(template, port, resourceName) == template
  {
  }

  lemma Line01Plain() ensures '_' !in Line01 {}
  lemma Line02Plain() ensures '_' !in Line02 {}
  lemma SocketOpenPlain() ensures '_' !in SocketOpen {}
  lemma SocketUrlPrefixPlain() ensures '_' !in SocketUrlPrefix {}
  lemma SocketClosePlain() ensures '_' !in SocketClose {}
  lemma Line04Plain() ensures '_' !in Line04 {}
  lemma Line05Plain() ensures '_' !in Line05 {}
  lemma Line06Plain() ensures '_' !in Line06 {}
  lemma Line07Plain() ensures '_' !in Line07 {}
  lemma Line08Plain() ensures '_' !in Line08 {}
  lemma Line09Plain() ensures '_' !in Line09 {}
  lemma Line10Plain() ensures '_' !in Line10 {}
  lemma Line11Plain() ensures '_' !in Line11 {}
  lemma Line12Plain() ensures '_' !in Line12 {}
  lemma Line13Plain() ensures '_' !in Line13 {}
  lemma Line14Plain() ensures '_' !in Line14 {}
  lemma Line15Plain() ensures '_' !in Line15 {}
  lemma Line16Plain() ensures '_' !in Line16 {}
  lemma Line17Plain() ensures '_' !in Line17 {}

  lemma RestPlain()
    ensures '_' !in Rest
  {
    Line04Plain();
    Line05Plain();
    Line06Plain();
    Line07Plain();
    Line08Plain();
    Line09Plain();
    Line10Plain();
    Line11Plain();
    Line12Plain();
    Line13Plain();
    Line14Plain();
    Line15Plain();
    Line16Plain();
    Line17Plain();
  }

  lemma {:induction false} DecimalPlain(n: nat)
    ensures '_' !in Decimal(n) && '$' !in Decimal(n) && '/' !in Decimal(n)
  {
    var d := Decimal(n);
    forall i | 0 <= i < |d| ensures d[i] != '_' && d[i] != '$' && d[i] != '/' {
      assert IsDigit(d[i]);
    }
  }

  /** Substitution into a template whose only underscores are those of one
      `__PORT__`. */
  lemma {:induction false} InjectPortOnly(head: string, tail: string, port: nat, resourceName: string)
    requires '_' !in head && '_' !in tail
    ensures InjectedScript(head + PortPlaceholder + tail, port, resourceName) == head + Decimal(port) + tail
  {
    DecimalPlain(port);
    NoOccurrenceBefore(head, PortPlaceholder, tail, '_');
    ReplaceFirstPlain(head, PortPlaceholder, tail, Decimal(port));
    var once := head + Decimal(port) + tail;
    assert '_' !in once;
    forall j: nat ensures !OccursAt(once, ResourcePlaceholder, j) {
      AbsentCharBlocksPattern(once, ResourcePlaceholder, '_', j);
    }
    ReplaceFirstWithoutOccurrence(once, ResourcePlaceholder, MountPath(resourceName));
  }

  /** Substitution into a template whose only underscores are those of
      `__PORT__/__RESOURCE_NAME__`. */
  lemma {:induction false} InjectPortAndMount(head: string, tail: string, port: nat, mount: string)
    requires '_' !in head && '_' !in tail && '$' !in mount
    ensures InjectedScript(head + PortPlaceholder + "/" + ResourcePlaceholder + tail, port, "/" + mount)
        == head + Decimal(port) + "/" + mount + tail
  {
    var rest := "/" + ResourcePlaceholder + tail;
    var front := head + Decimal(port) + "/";
    assert ReplaceFirst(head + PortPlaceholder + "/" + ResourcePlaceholder + tail, PortPlaceholder, Decimal(port))
        == front + ResourcePlaceholder + tail by {
      DecimalPlain(port);
      assert head + PortPlaceholder + "/" + ResourcePlaceholder + tail == head + PortPlaceholder + rest;
      NoOccurrenceBefore(head, PortPlaceholder, rest, '_');
      ReplaceFirstPlain(head, PortPlaceholder, rest, Decimal(port));
      assert head + Decimal(port) + rest == front + ResourcePlaceholder + tail;
    }
    assert MountPath("/" + mount) == mount by {
      assert ("/" + mount)[..1] == "/";
      assert ("/" + mount)[1..] == mount;
    }
    assert ReplaceFirst(front + ResourcePlaceholder + tail, ResourcePlaceholder, mount) == front + mount + tail by {
      DecimalPlain(port);
      assert '_' !in front;
      NoOccurrenceBefore(front, ResourcePlaceholder, tail, '_');
      ReplaceFirstPlain(front, ResourcePlaceholder, tail, mount);
    }
  }

  /** The script text determines the URL its socket opens. */
  lemma {:induction false} ScriptUrlDetermines(u1: string, u2: string)
    requires u1 != u2
    ensures ScriptWithSocketUrl(u1) != ScriptWithSocketUrl(u2)
  {
    var head := Line01 + Line02 + SocketOpen;
    var tail := SocketClose + Rest;
    RegroupUrl(Line01, Line02, SocketOpen, u1, SocketClose, Rest);
    RegroupUrl(Line01, Line02, SocketOpen, u2, SocketClose, Rest);
    if ScriptWithSocketUrl(u1) == ScriptWithSocketUrl(u2) {
      MiddleDetermines(head, u1, u2, tail);
    }
  }

  lemma RegroupUrl(a: string, b: string, c: string, u: string, d: string, e: string)
    ensures a + b + c + u + d + e == (a + b + c) + u + (d + e)
  {
  }

  lemma {:induction false} MiddleDetermines(head: string, u1: string, u2: string, tail: string)
    requires head + u1 + tail == head + u2 + tail
    ensures u1 == u2
  {
    var s := head + u1 + tail;
    assert |u1| == |u2|;
    assert s[|head|..|head| + |u1|] == u1;
    assert (head + u2 + tail)[|head|..|head| + |u2|] == u2;
  }

  lemma Regroup(a: string, b: string, c: string, d: string, e: string, f: string, g: string)
    ensures a + b + c + (d + e) + f + g == (a + b + c + d) + e + (f + g)
  {
  }

  lemma RegroupFour(a: string, b: string, c: string, d: string, e: string, f: string, g: string, h: string, i: string)
    ensures a + b + c + (d + e + f + g) + h + i == (a + b + c + d) + e + f + g + (h + i)
  {
  }

  /** The shipped script gets the port and nothing else: it holds no
      `__RESOURCE_NAME__`, so the mount path never reaches it, and its socket opens
      `ws://localhost:<port>`. */
  lemma {:induction false} ShippedInjection(port: nat, resourceName: string)
    ensures InjectedScript(Template, port, resourceName)
        == ScriptWithSocketUrl(SocketUrlPrefix + Decimal(port))
  {
    Line01Plain(); Line02Plain(); SocketOpenPlain(); SocketUrlPrefixPlain(); SocketClosePlain();
    RestPlain();
    var head := Line01 + Line02 + SocketOpen + SocketUrlPrefix;
    var tail := SocketClose + Rest;
    Regroup(Line01, Line02, SocketOpen, SocketUrlPrefix, PortPlaceholder, SocketClose, Rest);
    InjectPortOnly(head, tail, port, resourceName);
    Regroup(Line01, Line02, SocketOpen, SocketUrlPrefix, Decimal(port), SocketClose, Rest);
  }

  /** The mount path does not influence the shipped script. */
  lemma {:induction false} ShippedIgnoresMountPath(port: nat, name1: string, name2: string)
    ensures InjectedScript(Template, port, name1) == InjectedScript(Template, port, name2)
  {
    ShippedInjection(port, name1);
    ShippedInjection(port, name2);
  }

  /** The template as its substitution code intends it: the socket opens
      `ws://localhost:__PORT__/__RESOURCE_NAME__`. */
  const CorrectedTemplate: string :=
    ScriptWithSocketUrl(SocketUrlPrefix + PortPlaceholder + "/" + ResourcePlaceholder)

  /** With the corrected template the socket URL carries the port and the mount
      path; a mount path with '$' would be expanded by `replace`. */
  lemma {:induction false} CorrectedInjection(port: nat, resourceName: string)
    requires '$' !in resourceName
    ensures InjectedScript(CorrectedTemplate, port, resourceName)
        == ScriptWithSocketUrl(SocketUrlPrefix + Decimal(port) + "/" + MountPath(resourceName))
  {
    Line01Plain(); Line02Plain(); SocketOpenPlain(); SocketUrlPrefixPlain(); SocketClosePlain();
    RestPlain();
    var head := Line01 + Line02 + SocketOpen + SocketUrlPrefix;
    var tail := SocketClose + Rest;
    var mount := MountPath(resourceName);
    assert '$' !in mount by {
      if StartsWith(resourceName, "/") {
        assert forall i :: 0 <= i < |mount| ==> mount[i] == resourceName[i + 1];
      }
    }
    RegroupFour(Line01, Line02, SocketOpen, SocketUrlPrefix, PortPlaceholder, "/", ResourcePlaceholder, SocketClose, Rest);
    assert MountPath("/" + mount) == mount by {
      assert ("/" + mount)[..1] == "/";
      assert ("/" + mount)[1..] == mount;
    }
    InjectPortAndMount(head, tail, port, mount);
    RegroupFour(Line01, Line02, SocketOpen, SocketUrlPrefix, Decimal(port), "/", mount, SocketClose, Rest);
  }
}

=== FILE: live_reload.dfy ===
/** The path logic of the live-reload channel started by `wsInit` (index.js:89-127)
    and the port cell the renderer reads (index.js:28-30).

    With a caller-supplied server the channel registers an 'upgrade' handler that
    hands the request to the websocket server only when its pathname is exactly the
    normalised resource name, and destroys the socket otherwise. Without one it
    creates a private server whose websocket server takes every upgrade. */
module LiveReload {
  import opened Wrappers
  import opened Text

  /** The resource name with a '/' put in front when it has none (index.js:94). */
  function NormalizeResourceName(name: string): (n: string)
    ensures StartsWith(n, "/")
    ensures n == "/" + StripLeadingSlash(name)
  {
    if StartsWith(name, "/") then name else "/" + name
  }

  /** A '/' is added only when missing, so normalising twice changes nothing. */
  lemma NormalizeIsIdempotent(name: string)
    ensures NormalizeResourceName(NormalizeResourceName(name)) == NormalizeResourceName(name)
  {
  }

  /** Stripping one '/' undoes normalisation exactly when the name started with one
      '/' but not two. */
  lemma NormalizeUndoesStrip(name: string)
    ensures NormalizeResourceName(StripLeadingSlash(name)) == name
        <==> StartsWith(name, "/") && !StartsWith(name, "//")
  {
  }

  /** How the websocket server is attached. */
  datatype Listener =
    | Shared(port: nat)          // the caller's server, already listening on `port`
    | Owned(ephemeralPort: nat)  // a private server, bound by `listen(0)` to this port

  datatype UpgradeAction = HandleUpgrade | DestroySocket

  /** The shared server's 'upgrade' handler (index.js:107-117); `requestPathname` is
      `url.parse(request.url).pathname`, `None` for `null`. */
  function RouteUpgrade(resourceName: string, requestPathname: Option<string>): (a: UpgradeAction)
    ensures a == HandleUpgrade <==> requestPathname == Some("/" + StripLeadingSlash(resourceName))
  {
    if requestPathname == Some(NormalizeResourceName(resourceName)) then HandleUpgrade
    else DestroySocket
  }

  /** What happens to an upgrade request on the channel's listener: a private
      server takes every upgrade (index.js:99); on a shared server an upgrade is
      accepted iff its pathname is '/' followed by the resource name without its
      leading '/', and every other request, one with no pathname included, has its
      socket destroyed (index.js:107-117). */
  function Upgrade(listener: Listener, resourceName: string, requestPathname: Option<string>): (a: UpgradeAction)
    ensures listener.Owned? ==> a == HandleUpgrade
    ensures listener.Shared? ==>
      (a == HandleUpgrade <==>
         requestPathname.Some? && requestPathname.value == "/" + StripLeadingSlash(resourceName))
    ensures listener.Shared? && requestPathname.None? ==> a == DestroySocket
  {
    match listener
    case Shared(_) => RouteUpgrade(resourceName, requestPathname)
    case Owned(_) => HandleUpgrade
  }

  /** Exactly one pathname gets through a shared server. */
  lemma OneAcceptedPathname(resourceName: string, p: string, q: string)
    requires RouteUpgrade(resourceName, Some(p)) == HandleUpgrade
    requires RouteUpgrade(resourceName, Some(q)) == HandleUpgrade
    ensures p == q
  {
  }

  /** The resource name may be configured with or without its leading '/'. */
  lemma RoutingIgnoresLeadingSlash(name: string, requestPathname: Option<string>)
    requires !StartsWith(name, "/")
    ensures RouteUpgrade("/" + name, requestPathname) == RouteUpgrade(name, requestPathname)
  {
    assert ("/" + name)[..1] == "/";
  }

  /** The port `wsInit` resolves with: the shared server's own port, or the one the
      private server was bound to (index.js:119-125). */
  function ChannelPort(listener: Listener): nat
  {
    match listener
    case Shared(p) => p
    case Owned(p) => p
  }

  /** How the background start settles. */
  datatype StartSettlement = Started(port: nat) | StartFailed

  /** The `wsPort` cell a render reads: 0 until the background start resolves, its
      port afterwards; a failed start is only logged and leaves 0; without
      development mode the start never runs (index.js:28-30). */
  function PortCell(development: bool, settled: Option<StartSettlement>): (p: nat)
    ensures p != 0 ==> development && settled == Some(Started(p))
    ensures development && settled.Some? && settled.value.Started? ==> p == settled.value.port
  {
    if development && settled.Some? && settled.value.Started? then settled.value.port else 0
  }
}

=== FILE: page_url.dfy ===
/** The page URL built by `getPageUrl` (index.js:21-26): one leading '/' is stripped
    from the pathname and from the prefix, the reference `prefix/pathname` is formed,
    and that reference is resolved against the configured origin by the URL parser.

    Resolution is modelled for a fragment of the basic URL parser of section 4.4 of the
    WHATWG URL Standard, where it coincides with reference resolution in sections
    5.2.2-5.2.3 of RFC 3986: an http(s) origin with an empty path, and a reference made
    of plain path characters with no dot segments, no query, no fragment and no
    authority. Outside that fragment `Resolve` answers `None`. */
module PageUrl {
  import opened Wrappers
  import opened Text

  /** The reference handed to `new URL(reference, origin)`. */
  function PageReference(pathname: string, prefix: string): (ref: string)
    ensures |ref| == |StripLeadingSlash(prefix)| + 1 + |StripLeadingSlash(pathname)|
    ensures StartsWith(ref, StripLeadingSlash(prefix))
    ensures ref[|StripLeadingSlash(prefix)|] == '/'
    ensures ref[|StripLeadingSlash(prefix)| + 1..] == StripLeadingSlash(pathname)
  {
    StripLeadingSlash(prefix) + "/" + StripLeadingSlash(pathname)
  }

  // ---------------------------------------------------------------------------
  // The modelled fragment of URL resolution
  // ---------------------------------------------------------------------------

  /** A serialised origin: scheme, host and an optional explicit port, empty path. */
  datatype Origin = Origin(scheme: string, host: string, port: Option<nat>)

  predicate HostChar(c: char)
  {
    'a' <= c <= 'z' || '0' <= c <= '9' || c == '.' || c == '-'
  }

  function DefaultPort(scheme: string): nat
  {
    if scheme == "https" then 443 else 80
  }

  /** A host the host parser of section 3.5 of the WHATWG URL Standard returns as
      written: non-empty '.'-separated labels of lower-case letters, digits and '-',
      none with the IDNA prefix `xn--` (whose Punycode would be checked), and a last
      label that starts with a letter, so the IPv4 parser, which takes every host
      whose last label is a number, never sees it. */
  predicate ModelledHost(host: string)
  {
    var labels := Split(host, '.');
    && (forall i :: 0 <= i < |host| ==> HostChar(host[i]))
    && (forall k :: 0 <= k < |labels| ==> |labels[k]| > 0 && !StartsWith(labels[k], "xn--"))
    && |labels[|labels| - 1]| > 0 && 'a' <= labels[|labels| - 1][0] <= 'z'
  }

  /** An origin already in the form the URL parser serialises it: an http or https
      scheme, a host kept as written, no default port, nothing after the
      authority. */
  predicate ModelledOrigin(o: Origin)
  {
    && (o.scheme == "http" || o.scheme == "https")
    && ModelledHost(o.host)
    && (o.port.Some? ==> o.port.value != DefaultPort(o.scheme) && o.port.value <= 65535)
  }

  /** `scheme://host[:port]`, the href of the origin without its trailing '/'. */
  function Serialize(o: Origin): string
  {
    o.scheme + "://" + o.host + (if o.port.Some? then ":" + Decimal(o.port.value) else "")
  }

  /** Characters the path state of the URL parser copies unchanged and that start
      no query, fragment, escape or backslash. */
  predicate PathChar(c: char)
  {
    'a' <= c <= 'z' || 'A' <= c <= 'Z' || '0' <= c <= '9' || c in {'-', '.', '_', '~', '!', '$', '&', '\'', '(', ')', '*', '+', ',', ';', '=', ':', '@', '/'}
  }

  /** The `sep`-separated pieces of `s`; there is always at least one. */
  function Split(s: string, sep: char): (r: seq<string>)
    ensures |r| >= 1
  {
    if |s| == 0 then [""]
    else if s[0] == sep then [""] + Split(s[1..], sep)
    else
      var rest := Split(s[1..], sep);
      [[s[0]] + rest[0]] + rest[1..]
  }

  /** The '/'-separated segments of a path. */
  function Segments(s: string): (r: seq<string>)
    ensures |r| >= 1
  {
    Split(s, '/')
  }

  /** No segment is `.` or `..` (which the parser would remove or pop). */
  predicate DotFree(s: string)
  {
    forall k :: 0 <= k < |Segments(s)| ==> Segments(s)[k] != "." && Segments(s)[k] != ".."
  }

  /** A reference inside the modelled fragment: plain path characters, no dot
      segments, not a network-path reference (`//host`), and, when it does not start
      with '/', no ':' before its first '/' (which the parser would read as a scheme). */
  predicate ModelledReference(ref: string)
  {
    && (forall i :: 0 <= i < |ref| ==> PathChar(ref[i]))
    && !StartsWith(ref, "//")
    && (StartsWith(ref, "/") || ':' !in Segments(ref)[0])
    && DotFree(ref)
  }

  /** `new URL(ref, origin).href` on the modelled fragment: an absolute-path
      reference replaces the origin's empty path, a relative-path one is merged
      with it (section 5.2.3 of RFC 3986: "/" followed by the reference). */
  function Resolve(o: Origin, ref: string): (r: Option<string>)
    ensures r.Some? <==> ModelledOrigin(o) && ModelledReference(ref)
    ensures r.Some? ==> StartsWith(r.value, Serialize(o) + "/")
  {
    if !(ModelledOrigin(o) && ModelledReference(ref)) then None
    else if StartsWith(ref, "/") then Some(Serialize(o) + ref)
    else Some(Serialize(o) + "/" + ref)
  }

  /** `getPageUrl(pathname, prefix)` against origin `o`. */
  function GetPageUrl(o: Origin, pathname: string, prefix: string): (r: Option<string>)
    ensures r.Some? <==> ModelledOrigin(o) && ModelledReference(PageReference(pathname, prefix))
    ensures r.Some? ==> StartsWith(r.value, Serialize(o) + "/")
  {
    Resolve(o, PageReference(pathname, prefix))
  }

  /** A page URL ends with the pathname as requested, less one leading '/'. */
  lemma {:induction false} PageUrlEndsWithPathname(o: Origin, pathname: string, prefix: string)
    requires GetPageUrl(o, pathname, prefix).Some?
    ensures
      var u, q := GetPageUrl(o, pathname, prefix).value, StripLeadingSlash(pathname);
      |u| >= |q| && u[|u| - |q|..] == q
  {
    var ref := PageReference(pathname, prefix);
    var q := StripLeadingSlash(pathname);
    assert ref[|ref| - |q|..] == q;
    var u := GetPageUrl(o, pathname, prefix).value;
    assert u[|u| - |ref|..] == ref;
    assert u[|u| - |q|..] == ref[|ref| - |q|..];
  }

  // ---------------------------------------------------------------------------
  // Properties of the reference
  // ---------------------------------------------------------------------------

  /** Each argument loses at most one leading '/': `//x` keeps one. */
  lemma StripKeepsSecondSlash(x: string)
    ensures StripLeadingSlash("//" + x) == "/" + x
    ensures |StripLeadingSlash(x)| + 1 >= |x|
  {
    assert ("//" + x)[1..] == "/" + x;
  }

  /** A pathname and a prefix written with or without their leading '/' build the
      same reference: `getPageUrl('/a/b', '/p')` and `getPageUrl('a/b', 'p')` agree. */
  lemma LeadingSlashIsOptional(pathname: string, prefix: string)
    requires !StartsWith(pathname, "/") && !StartsWith(prefix, "/")
    ensures PageReference("/" + pathname, "/" + prefix) == PageReference(pathname, prefix)
    ensures PageReference("/" + pathname, prefix) == PageReference(pathname, prefix)
    ensures PageReference(pathname, "/" + prefix) == PageReference(pathname, prefix)
  {
    assert StripLeadingSlash("/" + pathname) == pathname by {
      assert ("/" + pathname)[1..] == pathname;
    }
    assert StripLeadingSlash("/" + prefix) == prefix by {
      assert ("/" + prefix)[1..] == prefix;
    }
  }

  /** Under one prefix, two pathnames build the same reference exactly when they
      agree once their leading '/' is stripped. */
  lemma SameReferenceIff(x: string, y: string, prefix: string)
    ensures PageReference(x, prefix) == PageReference(y, prefix)
        <==> StripLeadingSlash(x) == StripLeadingSlash(y)
  {
    var p := StripLeadingSlash(prefix);
    if PageReference(x, prefix) == PageReference(y, prefix) {
      assert StripLeadingSlash(x) == PageReference(x, prefix)[|p| + 1..];
    }
  }

  /** The default pathname '/' gives a reference ending in '/'; the empty prefix
      gives one starting with '/'. */
  lemma DefaultShapes(pathname: string, prefix: string)
    ensures PageReference("/", prefix) == StripLeadingSlash(prefix) + "/"
    ensures StartsWith(PageReference(pathname, ""), "/")
  {
    assert StripLeadingSlash("/") == "";
    assert StripLeadingSlash("") == "";
  }

  // ---------------------------------------------------------------------------
  // Properties of the resolved URL
  // ---------------------------------------------------------------------------

  /** Splitting at a separator placed between `a` and `b` splits each side. */
  lemma {:induction false} SplitOfJoin(a: string, b: string, sep: char)
    ensures Split(a + [sep] + b, sep) == Split(a, sep) + Split(b, sep)
    decreases |a|
  {
    var s := a + [sep] + b;
    if |a| == 0 {
      assert s[0] == sep && s[1..] == b;
    } else {
      assert s[1..] == a[1..] + [sep] + b;
      SplitOfJoin(a[1..], b, sep);
    }
  }

  /** Path characters only, and no dot segment. */
  predicate CleanPath(p: string)
  {
    (forall i :: 0 <= i < |p| ==> PathChar(p[i])) && DotFree(p)
  }

  /** A path part that stays as written inside the modelled fragment. */
  predicate PlainPath(p: string)
  {
    CleanPath(p) && !StartsWith(p, "/")
  }

  /** Text without the separator is a single piece. */
  lemma {:induction false} SplitWithoutSep(s: string, sep: char)
    requires sep !in s
    ensures Split(s, sep) == [s]
    decreases |s|
  {
    if |s| > 0 {
      assert forall i :: 0 <= i < |s[1..]| ==> s[1..][i] == s[i + 1];
      SplitWithoutSep(s[1..], sep);
      assert [s[0]] + s[1..] == s;
    }
  }

  lemma {:induction false} JoinDotFree(p: string, q: string)
    requires DotFree(p) && DotFree(q)
    ensures DotFree(p + "/" + q)
    ensures Segments(p + "/" + q)[0] == Segments(p)[0]
  {
    var ref := p + "/" + q;
    SplitOfJoin(p, q, '/');
    forall k | 0 <= k < |Segments(ref)|
      ensures Segments(ref)[k] != "." && Segments(ref)[k] != ".."
    {
      if k < |Segments(p)| {
        assert Segments(ref)[k] == Segments(p)[k];
      } else {
        assert Segments(ref)[k] == Segments(q)[k - |Segments(p)|];
      }
    }
  }

  lemma {:induction false} JoinPathChars(p: string, q: string)
    requires forall i :: 0 <= i < |p| ==> PathChar(p[i])
    requires forall i :: 0 <= i < |q| ==> PathChar(q[i])
    ensures forall i :: 0 <= i < |p + "/" + q| ==> PathChar((p + "/" + q)[i])
  {
    var ref := p + "/" + q;
    forall i | 0 <= i < |ref| ensures PathChar(ref[i]) {
      if i < |p| {
        assert ref[i] == p[i];
      } else if i > |p| {
        assert ref[i] == q[i - |p| - 1];
      }
    }
  }

  /** An absolute-path reference `/q` replaces the origin's empty path. */
  lemma {:induction false} ResolveAbsolutePath(o: Origin, q: string)
    requires ModelledOrigin(o) && PlainPath(q)
    ensures Resolve(o, "/" + q) == Some(Serialize(o) + "/" + q)
  {
    var ref := "/" + q;
    assert DotFree("") by { assert Segments("") == [""]; }
    JoinDotFree("", q);
    JoinPathChars("", q);
    assert "" + "/" + q == ref;
    assert ref[..1] == "/";
    assert ModelledReference(ref);
    assert Serialize(o) + ref == Serialize(o) + "/" + q;
  }

  /** A relative-path reference `p/q` is appended to the origin after a '/'. */
  lemma {:induction false} ResolveRelativePath(o: Origin, p: string, q: string)
    requires ModelledOrigin(o) && PlainPath(p) && PlainPath(q) && p != ""
    requires ':' !in Segments(p)[0]
    ensures Resolve(o, p + "/" + q) == Some(Serialize(o) + "/" + p + "/" + q)
  {
    var ref := p + "/" + q;
    JoinDotFree(p, q);
    JoinPathChars(p, q);
    assert ref[0] == p[0];
    assert ModelledReference(ref);
    assert Serialize(o) + "/" + ref == Serialize(o) + "/" + p + "/" + q;
  }

  lemma JoinClean(p: string, q: string)
    requires CleanPath(p) && CleanPath(q)
    ensures CleanPath(p + "/" + q)
  {
    JoinDotFree(p, q);
    JoinPathChars(p, q);
  }

  /** When neither argument still starts with '/' after one is stripped, and the
      rest is in the modelled fragment, the page URL is `origin/pathname'` for an
      empty prefix and `origin/prefix'/pathname'` otherwise, where `'` strips one
      '/'. */
  lemma {:induction false} PageUrlOnOrigin(o: Origin, pathname: string, prefix: string)
    requires ModelledOrigin(o)
    requires PlainPath(StripLeadingSlash(pathname)) && PlainPath(StripLeadingSlash(prefix))
    requires ':' !in Segments(StripLeadingSlash(prefix))[0]
    ensures StripLeadingSlash(prefix) == "" ==>
      GetPageUrl(o, pathname, prefix) == Some(Serialize(o) + "/" + StripLeadingSlash(pathname))
    ensures StripLeadingSlash(prefix) != "" ==>
      GetPageUrl(o, pathname, prefix)
        == Some(Serialize(o) + "/" + StripLeadingSlash(prefix) + "/" + StripLeadingSlash(pathname))
  {
    var p, q := StripLeadingSlash(prefix), StripLeadingSlash(pathname);
    assert PageReference(pathname, prefix) == p + "/" + q;
    if p == "" {
      assert p + "/" + q == "/" + q;
      ResolveAbsolutePath(o, q);
    } else {
      ResolveRelativePath(o, p, q);
    }
  }

  /** The `window.fetch` override resolves with the empty prefix (index.js:58-59).
      Its reference is a network-path reference `//...`, which would leave the
      origin's host, exactly when the URL still starts with '/' after one is
      stripped. Inside the modelled fragment every other URL resolves on the
      origin, even a string that looks like an absolute URL. (A URL starting
      with '\' is outside the fragment: for http and https the parser reads `/\`
      like `//`.) */
  lemma {:induction false} FetchStaysOnOrigin(o: Origin, url: string)
    ensures StartsWith(PageReference(url, ""), "//") <==> StartsWith(StripLeadingSlash(url), "/")
    ensures GetPageUrl(o, url, "").Some? ==>
      GetPageUrl(o, url, "").value == Serialize(o) + "/" + StripLeadingSlash(url)
  {
    var q := StripLeadingSlash(url);
    assert StripLeadingSlash("") == "";
    assert PageReference(url, "") == "/" + q;
    if StartsWith(PageReference(url, ""), "//") {
      assert q[..1] == PageReference(url, "")[1..2];
    }
    if StartsWith(q, "/") {
      assert PageReference(url, "")[..2] == "//";
    }
  }

  /** A single segment of plain characters is a plain path. */
  lemma PlainWord(w: string)
    requires w != "." && w != ".."
    requires forall i :: 0 <= i < |w| ==> PathChar(w[i]) && w[i] != '/' && w[i] != ':'
    ensures PlainPath(w) && Segments(w) == [w] && ':' !in Segments(w)[0]
  {
    SplitWithoutSep(w, '/');
    assert DotFree(w);
    assert !StartsWith(w, "/") by {
      if |w| > 0 {
        assert w[..1][0] == w[0] != '/';
      }
    }
  }

  /** `getPageUrl('/page', 'app')` against `https://example.com` is
      `https://example.com/app/page`. */
  lemma ExamplePageUrl(o: Origin, pathname: string, prefix: string)
    requires o == Origin("https", "example.com", None)
    requires pathname == "/page" && prefix == "app"
    ensures GetPageUrl(o, pathname, prefix) == Some("https://example.com/app/page")
  {
    ExampleComPieces(o, pathname, prefix);
    ExampleComSerialized(o);
    ExampleComText(Serialize(o));
  }

  lemma ExampleComPieces(o: Origin, pathname: string, prefix: string)
    requires o == Origin("https", "example.com", None)
    requires pathname == "/page" && prefix == "app"
    ensures GetPageUrl(o, pathname, prefix) == Some(Serialize(o) + "/" + "app" + "/" + "page")
  {
    ExampleComModelled(o);
    ExampleArguments(pathname, prefix);
    PageUrlOnOrigin(o, pathname, prefix);
  }

  lemma ExampleComText(s: string)
    requires s == "https://example.com"
    ensures s + "/" + "app" + "/" + "page" == "https://example.com/app/page"
  {
  }

  lemma ExampleComModelled(o: Origin)
    requires o == Origin("https", "example.com", None)
    ensures ModelledOrigin(o)
  {
    ExampleComHost(o.host, "example", "com");
  }

  lemma ExampleComSerialized(o: Origin)
    requires o == Origin("https", "example.com", None)
    ensures Serialize(o) == "https://example.com"
  {
  }

  lemma ExampleComHost(host: string, a: string, b: string)
    requires host == "example.com" && a == "example" && b == "com"
    ensures ModelledHost(host)
  {
    assert !StartsWith(a, "xn--") by { assert a[..4] == "exam"; }
    assert host == a + "." + b;
    LabelsHost(a, b);
  }

  /** A plain host label: letters, digits or '-', without the IDNA prefix. */
  predicate WordLabel(w: string)
  {
    && |w| > 0
    && (forall i :: 0 <= i < |w| ==> HostChar(w[i]) && w[i] != '.')
    && !StartsWith(w, "xn--")
  }

  /** A host of one label is kept as written when that label starts with a letter. */
  lemma {:induction false} LabelHost(b: string)
    requires WordLabel(b) && 'a' <= b[0] <= 'z'
    ensures ModelledHost(b)
  {
    SplitWithoutSep(b, '.');
  }

  /** So is a host of two labels, the last one starting with a letter. */
  lemma {:induction false} LabelsHost(a: string, b: string)
    requires WordLabel(a) && WordLabel(b) && 'a' <= b[0] <= 'z'
    ensures ModelledHost(a + "." + b)
  {
    var h := a + "." + b;
    SplitOfJoin(a, b, '.');
    SplitWithoutSep(a, '.');
    SplitWithoutSep(b, '.');
    assert Split(h, '.') == [a, b];
    forall i | 0 <= i < |h| ensures HostChar(h[i]) {
      if i < |a| { assert h[i] == a[i]; } else if i > |a| { assert h[i] == b[i - |a| - 1]; }
    }
  }

  lemma ExampleArguments(pathname: string, prefix: string)
    requires pathname == "/page" && prefix == "app"
    ensures StripLeadingSlash(pathname) == "page" && StripLeadingSlash(prefix) == "app"
    ensures PlainPath(StripLeadingSlash(pathname)) && PlainPath(StripLeadingSlash(prefix))
    ensures ':' !in Segments(StripLeadingSlash(prefix))[0]
  {
    assert pathname[1..] == "page";
    assert prefix[..1][0] == 'a';
    PlainWord(pathname[1..]);
    PlainWord(prefix);
  }

  /** The fetch override keeps a URL that looks absolute on the origin:
      `fetch('https://cdn.example/x.js')` on `http://localhost:3000` requests
      `http://localhost:3000/https://cdn.example/x.js`, on the origin's host. */
  lemma ExampleFetchOfAbsoluteUrl(o: Origin, url: string)
    requires o == Origin("http", "localhost", Some(3000))
    requires url == "https://cdn.example/x.js"
    ensures GetPageUrl(o, url, "") == Some("http://localhost:3000/" + url)
  {
    ExampleUrlIsPlain(url);
    ExampleOrigin(o);
    EmptyPrefix();
    PageUrlOnOrigin(o, url, "");
    var s := Serialize(o);
    assert s + "/" == "http://localhost:3000/";
  }

  lemma ExampleOrigin(o: Origin)
    requires o == Origin("http", "localhost", Some(3000))
    ensures ModelledOrigin(o) && Serialize(o) == "http://localhost:3000"
  {
    LocalOriginModelled(o);
    LocalOriginSerialized(o);
  }

  lemma LocalOriginModelled(o: Origin)
    requires o == Origin("http", "localhost", Some(3000))
    ensures ModelledOrigin(o)
  {
    LocalHost(o.host);
  }

  lemma LocalOriginSerialized(o: Origin)
    requires o == Origin("http", "localhost", Some(3000))
    ensures Serialize(o) == "http://localhost:3000"
  {
    assert Decimal(3000) == "3000" by {
      assert Decimal(3) == "3";
      assert Decimal(30) == "30";
      assert Decimal(300) == "300";
    }
  }

  /** Hosts whose last label starts with a digit, such as `127.1`, `256.0.0.1`
      or `example.1a`, are all outside the fragment. Every host the IPv4 parser
      takes (a last label of digits only, or a `0x` number) is in this class; the
      model excludes the whole class, domains like `example.1a` included. */
  lemma {:induction false} NumberEndedHostExcluded(a: string, b: string)
    requires '.' !in b && |b| > 0 && IsDigit(b[0])
    ensures !ModelledHost(b) && !ModelledHost(a + "." + b)
    ensures forall pathname, prefix, scheme, port ::
      GetPageUrl(Origin(scheme, a + "." + b, port), pathname, prefix).None?
  {
    SplitWithoutSep(b, '.');
    SplitOfJoin(a, b, '.');
    var labels := Split(a + "." + b, '.');
    assert labels[|labels| - 1] == b;
  }

  lemma LocalHost(host: string)
    requires host == "localhost"
    ensures ModelledHost(host)
  {
    assert !StartsWith(host, "xn--") by { assert host[..4] == "loca"; }
    LabelHost(host);
  }

  lemma EmptyPrefix()
    ensures StripLeadingSlash("") == "" && PlainPath("") && ':' !in Segments("")[0]
  {
    assert Segments("") == [""];
  }

  lemma ExampleUrlIsPlain(url: string)
    requires url == "https://cdn.example/x.js"
    ensures PlainPath(url) && StripLeadingSlash(url) == url
  {
    ExamplePieces("https:", "", "cdn.example", "x.js");
    assert url == "https:" + "/" + ("" + "/" + ("cdn.example" + "/" + "x.js"));
    assert !StartsWith(url, "/") by { assert url[..1][0] == 'h'; }
  }

  lemma ExamplePieces(scheme: string, empty: string, host: string, file: string)
    requires scheme == "https:" && empty == "" && host == "cdn.example" && file == "x.js"
    ensures CleanPath(scheme + "/" + (empty + "/" + (host + "/" + file)))
  {
    PlainWord(host);
    PlainWord(file);
    SplitWithoutSep(scheme, '/');
    SplitWithoutSep(empty, '/');
    JoinClean(host, file);
    JoinClean(empty, host + "/" + file);
    JoinClean(scheme, empty + "/" + (host + "/" + file));
  }
}

=== FILE: render_race.dfy ===
/** The completion/timeout race of `renderPage` (index.js:43-84) as a state machine
    over the events of one render, in the order the event loop delivers them.

    The page may write its status cell and emit `finish` at any time, also while
    its DOM is still being built. The coordinator arms the race once: it starts the
    `waitingTime` timer and registers its one-shot `once('finish')` listener in the
    same synchronous step (index.js:75-81), so neither event can fall between the
    two. The first `finish` or timer expiry after arming decides the race; a `finish`
    before arming has no listener and is lost. A trace ends when the coordinator
    resumes after the race, which is when it reads the status cell and serialises
    the DOM (index.js:82-83). Time is only the order of events. */
module RenderRace {
  import opened Wrappers

  datatype Event =
    | SetStatus(code: int)  // the page assigns `window.statusCode`
    | Finish                // the page calls `window.finishRender()`, emitting 'finish'
    | Arm                   // the coordinator starts the timer and registers its listener
    | TimerFires            // the `waitingTime` timer elapses

  datatype Winner = Completion | Timeout

  datatype Phase = Building | Racing | Decided(winner: Winner)

  datatype RaceState = RaceState(statusCell: int, phase: Phase)

  /** `window.statusCode = 200` before the page's scripts run (index.js:63). */
  const DefaultStatus: int := 200

  const Initial: RaceState := RaceState(DefaultStatus, Building)

  predicate IsArm(e: Event)
  {
    e.Arm?
  }

  /** An event that can decide the race. */
  predicate IsTerminal(e: Event)
  {
    e.Finish? || e.TimerFires?
  }

  function WinnerOf(e: Event): Winner
    requires IsTerminal(e)
  {
    if e.Finish? then Completion else Timeout
  }

  function Step(s: RaceState, e: Event): (r: RaceState)
    ensures s.phase.Decided? ==> r.phase == s.phase
    ensures !e.SetStatus? ==> r.statusCell == s.statusCell
  {
    match e
    case SetStatus(code) => s.(statusCell := code)
    case Finish => if s.phase.Racing? then s.(phase := Decided(Completion)) else s
    case Arm => if s.phase.Building? then s.(phase := Racing) else s
    case TimerFires => if s.phase.Racing? then s.(phase := Decided(Timeout)) else s
  }

  /** The state after the events of `trace`, in order. Once decided, the race stays
      decided the same way. */
  function Run(s: RaceState, trace: seq<Event>): (r: RaceState)
    ensures s.phase.Decided? ==> r.phase == s.phase
    decreases |trace|
  {
    if |trace| == 0 then s else Run(Step(s, trace[0]), trace[1..])
  }

  lemma {:induction false} RunAppend(s: RaceState, a: seq<Event>, b: seq<Event>)
    ensures Run(s, a + b) == Run(Run(s, a), b)
    decreases |a|
  {
    if |a| == 0 {
      assert a + b == b;
    } else {
      assert (a + b)[1..] == a[1..] + b;
      RunAppend(Step(s, a[0]), a[1..], b);
    }
  }

  // ---------------------------------------------------------------------------
  // Reference description of the race
  // ---------------------------------------------------------------------------

  /** The index of the first event of `t` satisfying `f`. */
  function FirstWhere(t: seq<Event>, f: Event -> bool): (r: Option<nat>)
    ensures r.Some? ==> r.value < |t| && f(t[r.value])
    ensures forall k :: 0 <= k < |t| && (r.None? || k < r.value) ==> !f(t[k])
  {
    if |t| == 0 then None
    else if f(t[0]) then Some(0)
    else match FirstWhere(t[1..], f)
      case None => None
      case Some(k) => Some(k + 1)
  }

  /** The race read off the trace directly: nothing before the first `Arm`, then
      the first terminal event after it decides. */
  function ReferencePhase(t: seq<Event>): Phase
  {
    match FirstWhere(t, IsArm)
    case None => Building
    case Some(i) =>
      match FirstWhere(t[i + 1..], IsTerminal)
      case None => Racing
      case Some(j) => Decided(WinnerOf(t[i + 1 + j]))
  }

  /** The last value the page wrote to its status cell, or `initial`. */
  function LastWrite(t: seq<Event>, initial: int): int
  {
    if |t| == 0 then initial
    else if t[|t| - 1].SetStatus? then t[|t| - 1].code
    else LastWrite(t[..|t| - 1], initial)
  }

  lemma {:induction false} NoArmStaysBuilding(s: RaceState, t: seq<Event>)
    requires s.phase.Building?
    requires forall k :: 0 <= k < |t| ==> !IsArm(t[k])
    ensures Run(s, t).phase.Building?
    decreases |t|
  {
    if |t| > 0 {
      assert !IsArm(t[0]);
      NoArmStaysBuilding(Step(s, t[0]), t[1..]);
    }
  }

  lemma {:induction false} NoTerminalStaysRacing(s: RaceState, t: seq<Event>)
    requires s.phase.Racing?
    requires forall k :: 0 <= k < |t| ==> !IsTerminal(t[k])
    ensures Run(s, t).phase.Racing?
    decreases |t|
  {
    if |t| > 0 {
      assert !IsTerminal(t[0]);
      NoTerminalStaysRacing(Step(s, t[0]), t[1..]);
    }
  }

  /** Once armed, the first terminal event decides the race. */
  lemma {:induction false} RacingFollowsReference(s: RaceState, u: seq<Event>)
    requires s.phase.Racing?
    ensures FirstWhere(u, IsTerminal).None? ==> Run(s, u).phase == Racing
    ensures FirstWhere(u, IsTerminal).Some? ==>
      Run(s, u).phase == Decided(WinnerOf(u[FirstWhere(u, IsTerminal).value]))
  {
    match FirstWhere(u, IsTerminal)
    case None =>
      NoTerminalStaysRacing(s, u);
    case Some(j) =>
      assert u == u[..j] + [u[j]] + u[j + 1..];
      RunAppend(s, u[..j] + [u[j]], u[j + 1..]);
      RunAppend(s, u[..j], [u[j]]);
      NoTerminalStaysRacing(s, u[..j]);
  }

  /** The state machine decides the race exactly as the reference reading does:
      the first `finish` or timer expiry after arming wins. */
  lemma {:induction false} RaceFollowsReference(t: seq<Event>)
    ensures Run(Initial, t).phase == ReferencePhase(t)
  {
    match FirstWhere(t, IsArm)
    case None =>
      NoArmStaysBuilding(Initial, t);
    case Some(i) =>
      var pre, post := t[..i], t[i + 1..];
      assert t == pre + [t[i]] + post;
      RunAppend(Initial, pre + [t[i]], post);
      RunAppend(Initial, pre, [t[i]]);
      NoArmStaysBuilding(Initial, pre);
      RacingFollowsReference(Run(Initial, pre + [t[i]]), post);
  }

  /** The status cell holds the page's last write, whatever the race does. */
  lemma {:induction false} StatusCellIsLastWrite(s: RaceState, t: seq<Event>)
    ensures Run(s, t).statusCell == LastWrite(t, s.statusCell)
    decreases |t|
  {
    if |t| > 0 {
      var init := t[..|t| - 1];
      assert t == init + [t[|t| - 1]];
      RunAppend(s, init, [t[|t| - 1]]);
      StatusCellIsLastWrite(s, init);
    }
  }

  // ---------------------------------------------------------------------------
  // Outcome selection
  // ---------------------------------------------------------------------------

  /** What `Promise.race` settles with: the timer's message, or the `undefined`
      the promisified `once` delivers for an argument-less 'finish'. */
  datatype RaceValue = Message(text: string) | Undefined

  /** The timer's diagnostic (index.js:77). */
  const TimeoutMessage: string :=
    "Maybe you forgot to run window.finishRender() in your browser's JavaScript after your rendering is complete. Or SSR is very slow."

  const TimeoutStatus: int := 500

  datatype Rendered = Rendered(html: string, statusCode: int)

  function RaceValueOf(w: Winner): RaceValue
  {
    match w
    case Timeout => Message(TimeoutMessage)
    case Completion => Undefined
  }

  /** The choice at index.js:82-83: a race value that is a string and truthy, i.e.
      non-empty, is answered with status 500; anything else with the DOM and the
      status cell. `Outcome` states what this means for each winner. */
  function SelectResult(v: RaceValue, serialized: string, statusCell: int): Rendered
  {
    if v.Message? && |v.text| > 0 then Rendered(v.text, TimeoutStatus)
    else Rendered(serialized, statusCell)
  }

  /** The rendered page as a total function of the race winner. */
  function Outcome(w: Winner, serialized: string, statusCell: int): (r: Rendered)
    ensures w == Timeout ==> r == Rendered(TimeoutMessage, 500)
    ensures w == Completion ==> r == Rendered(serialized, statusCell)
  {
    SelectResult(RaceValueOf(w), serialized, statusCell)
  }

  /** The result of a render whose events so far are `t`, with `serialized` the
      DOM's serialisation when the coordinator resumes; `None` while the race is
      undecided. */
  function Settle(t: seq<Event>, serialized: string): (r: Option<Rendered>)
    ensures r.Some? <==> ReferencePhase(t).Decided?
    ensures r.Some? && ReferencePhase(t).winner == Timeout ==>
      r.value == Rendered(TimeoutMessage, 500)
    ensures r.Some? && ReferencePhase(t).winner == Completion ==>
      r.value == Rendered(serialized, LastWrite(t, DefaultStatus))
  {
    RaceFollowsReference(t);
    StatusCellIsLastWrite(Initial, t);
    var s := Run(Initial, t);
    if s.phase.Decided? then Some(Outcome(s.phase.winner, serialized, s.statusCell)) else None
  }

  // ---------------------------------------------------------------------------
  // Properties of the race
  // ---------------------------------------------------------------------------

  /** A `finish` emitted before the race is armed, e.g. while the DOM is being
      built, reaches no listener: the render goes on as if it never happened. */
  lemma {:induction false} FinishBeforeArmIsLost(pre: seq<Event>, post: seq<Event>)
    requires forall k :: 0 <= k < |pre| ==> !IsArm(pre[k])
    ensures Run(Initial, pre + [Finish] + post) == Run(Initial, pre + post)
  {
    RunAppend(Initial, pre + [Finish], post);
    RunAppend(Initial, pre, [Finish]);
    RunAppend(Initial, pre, post);
    NoArmStaysBuilding(Initial, pre);
  }

  /** So a page that signals completion only while its DOM is being built times
      out. */
  lemma {:induction false} EarlyFinishTimesOut(pre: seq<Event>, serialized: string)
    requires forall k :: 0 <= k < |pre| ==> !IsArm(pre[k])
    ensures Settle(pre + [Finish, Arm, TimerFires], serialized) == Some(Rendered(TimeoutMessage, 500))
  {
    var t := pre + [Finish, Arm, TimerFires];
    assert t == pre + [Finish] + [Arm, TimerFires];
    FinishBeforeArmIsLost(pre, [Arm, TimerFires]);
    RaceFollowsReference(t);
    RaceFollowsReference(pre + [Arm, TimerFires]);
    RunAppend(Initial, pre, [Arm, TimerFires]);
    NoArmStaysBuilding(Initial, pre);
  }

  /** Calling `finishRender()` twice in a row is the same as calling it once. */
  lemma {:induction false} RepeatedFinishIsIdempotent(s: RaceState, pre: seq<Event>, post: seq<Event>)
    ensures Run(s, pre + [Finish, Finish] + post) == Run(s, pre + [Finish] + post)
  {
    assert pre + [Finish, Finish] + post == (pre + [Finish]) + ([Finish] + post);
    assert pre + [Finish] + post == (pre + [Finish]) + post;
    RunAppend(s, pre + [Finish], [Finish] + post);
    RunAppend(s, pre + [Finish], post);
    RunAppend(s, pre, [Finish]);
    var m := Run(s, pre + [Finish]);
    assert !m.phase.Racing?;
    RunAppend(m, [Finish], post);
  }

  /** Once the race is decided, further events — more `finish` emits, the late
      timer — never change the winner. */
  lemma {:induction false} DecisionIsFinal(t: seq<Event>, later: seq<Event>)
    requires Run(Initial, t).phase.Decided?
    ensures Run(Initial, t + later).phase == Run(Initial, t).phase
  {
    RunAppend(Initial, t, later);
  }

  /** The render always settles: once armed, the timer's expiry decides the race
      if nothing did before. */
  lemma {:induction false} TimerGuaranteesSettlement(t: seq<Event>, i: nat, j: nat, serialized: string)
    requires i < j < |t| && t[i] == Arm && t[j] == TimerFires
    ensures Settle(t, serialized).Some?
  {
    var a := FirstWhere(t, IsArm);
    assert a.Some? && a.value <= i;
    var u := t[a.value + 1..];
    assert u[j - a.value - 1] == TimerFires;
    assert IsTerminal(u[j - a.value - 1]);
  }

  /** A page that does not call `finishRender()` once the timer is armed gets the
      timeout diagnostic with status 500; a `finish` emitted before arming has no
      listener and does not count. */
  lemma {:induction false} NoFinishMeansTimeout(t: seq<Event>, i: nat, serialized: string)
    requires i < |t| && t[i] == Arm
    requires forall k :: 0 <= k < i ==> t[k] != Arm
    requires forall k :: i < k < |t| ==> t[k] != Finish
    ensures Settle(t, serialized).Some? ==> Settle(t, serialized) == Some(Rendered(TimeoutMessage, 500))
  {
    assert IsArm(t[i]);
    assert FirstWhere(t, IsArm) == Some(i);
    match FirstWhere(t[i + 1..], IsTerminal)
    case None =>
    case Some(j) =>
      assert t[i + 1..][j] == t[i + 1 + j];
  }

  /** A page that never writes its status cell and finishes in time reports 200. */
  lemma {:induction false} UnwrittenStatusIs200(t: seq<Event>, serialized: string)
    requires forall k :: 0 <= k < |t| ==> !t[k].SetStatus?
    requires ReferencePhase(t) == Decided(Completion)
    ensures Settle(t, serialized) == Some(Rendered(serialized, 200))
  {
    UnwrittenKeepsInitial(t, DefaultStatus);
  }

  lemma {:induction false} UnwrittenKeepsInitial(t: seq<Event>, initial: int)
    requires forall k :: 0 <= k < |t| ==> !t[k].SetStatus?
    ensures LastWrite(t, initial) == initial
    decreases |t|
  {
    if |t| > 0 {
      UnwrittenKeepsInitial(t[..|t| - 1], initial);
    }
  }

  /** The end-to-end scenario: the page sets 404 and finishes before the timer. */
  lemma FinishWith404(serialized: string)
    ensures Settle([SetStatus(404), Arm, Finish, TimerFires], serialized)
      == Some(Rendered(serialized, 404))
  {
    var t := [SetStatus(404), Arm, Finish, TimerFires];
    assert FirstWhere(t, IsArm) == Some(1);
    assert t[2..] == [Finish, TimerFires];
    assert FirstWhere(t[2..], IsTerminal) == Some(0);
    assert t[..3][..2][..1] == [SetStatus(404)];
  }
}

=== FILE: renderer.dfy ===
/** The factory `SSRResourceConstructor` (index.js:19-87) and one `renderPage` call
    (index.js:43-84), assembled from the pieces of the other modules.

    What the DOM engine, the file system and the network contribute is a parameter:
    the client-script template is the text read from wb-inject.js, the port is the
    value of the port cell when the render reads it, the events are those of the
    render in delivery order, and `serialized` is `dom.serialize()` when the
    coordinator resumes. */
module Renderer {
  import opened Wrappers
  import opened Text
  import opened PageUrl
  import opened RenderRace
  import opened LiveReload
  import opened ClientScript

  /** The configuration the factory captures; `server` is the port of a caller's
      server that is already listening, if one was passed. */
  datatype Config = Config(
    origin: Origin,
    resourceName: string,
    htmlFile: string,
    development: bool,
    server: Option<nat>,
    waitingTime: nat)

  /** Destructuring with defaults: `development = true`, `waitingTime = 8000`
      (index.js:19). */
  function Configure(origin: Origin, resourceName: string, htmlFile: string,
                     development: Option<bool>, server: Option<nat>, waitingTime: Option<nat>): (c: Config)
    ensures development.None? ==> c.development
    ensures waitingTime.None? ==> c.waitingTime == 8000
    ensures development.Some? ==> c.development == development.value
    ensures waitingTime.Some? ==> c.waitingTime == waitingTime.value
  {
    Config(origin, resourceName, htmlFile, development.GetOr(true), server, waitingTime.GetOr(8000))
  }

  /** The listener `wsInit` attaches to: the caller's server, or a private one bound
      to `ephemeralPort` (index.js:95-99). */
  function ChannelListener(cfg: Config, ephemeralPort: nat): (l: Listener)
    ensures l.Owned? <==> cfg.server.None?
    ensures ChannelPort(l) == cfg.server.GetOr(ephemeralPort)
  {
    match cfg.server
    case Some(p) => Shared(p)
    case None => Owned(ephemeralPort)
  }

  /** The page URL the DOM is created at (index.js:45); the pathname defaults to '/',
      so a render without one gets a URL ending in '/'. */
  function SessionUrl(cfg: Config, pathname: Option<string>): (u: Option<string>)
    ensures u.Some? ==> StartsWith(u.value, Serialize(cfg.origin) + "/")
    ensures u.Some? && pathname.None? ==> u.value[|u.value| - 1] == '/'
  {
    DefaultShapes("/", cfg.resourceName);
    GetPageUrl(cfg.origin, pathname.GetOr("/"), cfg.resourceName)
  }

  /** The URL the overridden `window.fetch` requests for the page's `url`
      (index.js:58-59): `getPageUrl(url)` with the default prefix ''. */
  function PageFetchUrl(cfg: Config, url: Option<string>): (u: Option<string>)
    ensures u.Some? ==> !StartsWith(StripLeadingSlash(url.GetOr("/")), "/")
    ensures u.Some? ==> u.value == Serialize(cfg.origin) + "/" + StripLeadingSlash(url.GetOr("/"))
  {
    FetchStaysOnOrigin(cfg.origin, url.GetOr("/"));
    GetPageUrl(cfg.origin, url.GetOr("/"), "")
  }

  /** `<script>...</script>` appended at the end of the body (index.js:72). */
  function ScriptElement(script: string): string
  {
    "<script>" + script + "</script>"
  }

  /** One render session: the URL of its DOM, the script appended to it and the
      result once the race is decided. A session whose URL is `None` has neither:
      when `new URL` throws at index.js:24, `renderPage` rejects before the DOM
      exists. */
  datatype Session = Session(url: Option<string>, injected: Option<string>, result: Option<Rendered>)

  /** `renderPage(pathname)`: the URL the DOM gets, the script appended in
      development mode, and the result once the race is decided. */
  function RenderPage(cfg: Config, pathname: Option<string>, template: string, port: nat,
                      events: seq<Event>, serialized: string): (s: Session)
    ensures s.url.Some? ==> StartsWith(s.url.value, Serialize(cfg.origin) + "/")
    ensures s.injected.Some? <==> s.url.Some? && cfg.development
    ensures s.result.Some? <==> s.url.Some? && ReferencePhase(events).Decided?
    ensures s.result.Some? && ReferencePhase(events).winner == Timeout ==>
      s.result.value == Rendered(TimeoutMessage, 500)
    ensures s.result.Some? && ReferencePhase(events).winner == Completion ==>
      s.result.value == Rendered(serialized, LastWrite(events, DefaultStatus))
  {
    match SessionUrl(cfg, pathname)
    case None => Session(None, None, None)
    case Some(url) =>
      Session(
        Some(url),
        if cfg.development then Some(ScriptElement(InjectedScript(template, port, cfg.resourceName))) else None,
        Settle(events, serialized))
  }

  // ---------------------------------------------------------------------------
  // Properties of a render
  // ---------------------------------------------------------------------------

  /** Leaving the pathname out renders '/', whose reference is the prefix and a
      trailing '/'. */
  lemma {:induction false} DefaultPathname(cfg: Config, template: string, port: nat,
                                         events: seq<Event>, serialized: string)
    ensures RenderPage(cfg, None, template, port, events, serialized)
         == RenderPage(cfg, Some("/"), template, port, events, serialized)
    ensures SessionUrl(cfg, None)
         == Resolve(cfg.origin, StripLeadingSlash(cfg.resourceName) + "/")
  {
    DefaultShapes("/", cfg.resourceName);
  }

  /** With the shipped template, development mode appends a script whose socket
      opens `ws://localhost:<port cell>`; before the background start resolves, or
      after it failed, that is port 0. */
  lemma {:induction false} ShippedScriptUsesPortCell(cfg: Config, pathname: Option<string>,
                                                   settled: Option<StartSettlement>,
                                                   events: seq<Event>, serialized: string)
    requires cfg.development
    ensures SessionUrl(cfg, pathname).Some? ==>
      RenderPage(cfg, pathname, Template, PortCell(cfg.development, settled), events, serialized).injected
         == Some(ScriptElement(ScriptWithSocketUrl(SocketUrlPrefix + Decimal(PortCell(cfg.development, settled)))))
    ensures SessionUrl(cfg, pathname).Some? && (settled.None? || settled == Some(StartFailed)) ==>
      RenderPage(cfg, pathname, Template, PortCell(cfg.development, settled), events, serialized).injected
         == Some(ScriptElement(ScriptWithSocketUrl(SocketUrlPrefix + "0")))
  {
    ShippedInjection(PortCell(cfg.development, settled), cfg.resourceName);
    assert Decimal(0) == "0";
  }

  /** Once the background start has resolved, the script a render appends opens
      the channel's own port: the caller's server's, or the private server's. */
  lemma {:induction false} ScriptReachesChannel(cfg: Config, ephemeralPort: nat, pathname: Option<string>,
                                              events: seq<Event>, serialized: string)
    requires cfg.development && SessionUrl(cfg, pathname).Some?
    ensures
      var cell := PortCell(cfg.development, Some(Started(ChannelPort(ChannelListener(cfg, ephemeralPort)))));
      RenderPage(cfg, pathname, Template, cell, events, serialized).injected
        == Some(ScriptElement(ScriptWithSocketUrl(SocketUrlPrefix + Decimal(cfg.server.GetOr(ephemeralPort)))))
  {
    ShippedInjection(cfg.server.GetOr(ephemeralPort), cfg.resourceName);
  }

  /** `listen(0)` binds a port the system picks, never 0; so with a private server
      a render after the start resolved opens a different socket URL from one
      before it, which still uses the initial 0. */
  lemma {:induction false} PrivateStartChangesScript(cfg: Config, ephemeralPort: nat, pathname: Option<string>,
                                                   events: seq<Event>, serialized: string)
    requires cfg.development && cfg.server.None? && ephemeralPort > 0 && SessionUrl(cfg, pathname).Some?
    ensures
      var after := PortCell(cfg.development, Some(Started(ChannelPort(ChannelListener(cfg, ephemeralPort)))));
      var before := PortCell(cfg.development, None);
      RenderPage(cfg, pathname, Template, after, events, serialized).injected
        != RenderPage(cfg, pathname, Template, before, events, serialized).injected
  {
    var after := PortCell(cfg.development, Some(Started(ChannelPort(ChannelListener(cfg, ephemeralPort)))));
    var before := PortCell(cfg.development, None);
    assert after == ephemeralPort && before == 0;
    var u1, u2 := SocketUrlPrefix + Decimal(after), SocketUrlPrefix + Decimal(before);
    assert u1 != u2 by {
      DecimalRoundTrip(after);
      DecimalRoundTrip(0);
      assert u1[|SocketUrlPrefix|..] == Decimal(after);
      assert u2[|SocketUrlPrefix|..] == Decimal(0);
    }
    assert ScriptWithSocketUrl(u1) != ScriptWithSocketUrl(u2) by {
      ScriptUrlDetermines(u1, u2);
    }
    assert ScriptElement(ScriptWithSocketUrl(u1)) != ScriptElement(ScriptWithSocketUrl(u2)) by {
      if ScriptElement(ScriptWithSocketUrl(u1)) == ScriptElement(ScriptWithSocketUrl(u2)) {
        MiddleDetermines("<script>", ScriptWithSocketUrl(u1), ScriptWithSocketUrl(u2), "</script>");
      }
    }
    ShippedScriptUsesPortCell(cfg, pathname, Some(Started(ephemeralPort)), events, serialized);
    ShippedScriptUsesPortCell(cfg, pathname, None, events, serialized);
  }

  // ---------------------------------------------------------------------------
  // Where the client connects
  // ---------------------------------------------------------------------------

  predicate AllDigits(s: string)
  {
    forall i :: 0 <= i < |s| ==> IsDigit(s[i])
  }

  /** The pathname of the upgrade request a browser sends for
      `ws://localhost:<rest>`, where `rest` is a port and an optional plain path:
      the path from the first '/', or '/' when there is none (section 4.4 of the
      WHATWG URL Standard, for these inputs). `None` outside that shape. */
  function SocketPathname(rest: string): Option<string>
  {
    match IndexOf(rest, "/")
    case None => if |rest| > 0 && AllDigits(rest) then Some("/") else None
    case Some(i) =>
      if 0 < i && AllDigits(rest[..i]) && CleanPath(rest[i + 1..]) then Some(rest[i..]) else None
  }

  /** As written, the shipped client always requests '/': on a caller's server any
      mount path other than '' or '/' makes the upgrade handler destroy its socket,
      so live reload never connects. */
  lemma {:induction false} ShippedClientRejectedOnSharedServer(port: nat, resourceName: string)
    requires NormalizeResourceName(resourceName) != "/"
    ensures InjectedScript(Template, port, resourceName) == ScriptWithSocketUrl(SocketUrlPrefix + Decimal(port))
    ensures SocketPathname(Decimal(port)) == Some("/")
    ensures Upgrade(Shared(port), resourceName, SocketPathname(Decimal(port))) == DestroySocket
  {
    ShippedInjection(port, resourceName);
    DecimalPlain(port);
    var d := Decimal(port);
    forall j: nat ensures !OccursAt(d, "/", j) {
      AbsentCharBlocksPattern(d, "/", '/', j);
    }
  }

  /** With the corrected template the client requests `/<mount path>`, which is
      exactly the pathname the shared server's handler accepts. A name with '$'
      is left out: `replace` would expand it as a substitution pattern. So is a
      name with '@' or a quote (`'`): the handler's `url.parse` may then read
      the path as credentials and a host, or escape the quote as `%27`. */
  lemma {:induction false} CorrectedClientAcceptedOnSharedServer(port: nat, resourceName: string)
    requires CleanPath(MountPath(resourceName)) && '$' !in resourceName
    requires '@' !in resourceName && '\'' !in resourceName
    ensures InjectedScript(CorrectedTemplate, port, resourceName)
         == ScriptWithSocketUrl(SocketUrlPrefix + Decimal(port) + "/" + MountPath(resourceName))
    ensures SocketPathname(Decimal(port) + "/" + MountPath(resourceName))
         == Some(NormalizeResourceName(resourceName))
    ensures Upgrade(Shared(port), resourceName,
                    SocketPathname(Decimal(port) + "/" + MountPath(resourceName))) == HandleUpgrade
  {
    CorrectedInjection(port, resourceName);
    CorrectedSocketPathname(port, resourceName);
  }

  /** `ws://localhost:<port>/<mount path>` requests `/<mount path>`, which the
      handler reads back unchanged when the path holds neither '@' nor a quote. */
  lemma {:induction false} CorrectedSocketPathname(port: nat, resourceName: string)
    requires CleanPath(MountPath(resourceName))
    requires '@' !in resourceName && '\'' !in resourceName
    ensures SocketPathname(Decimal(port) + "/" + MountPath(resourceName))
         == Some(NormalizeResourceName(resourceName))
    ensures Upgrade(Shared(port), resourceName,
                    SocketPathname(Decimal(port) + "/" + MountPath(resourceName))) == HandleUpgrade
  {
    DecimalPlain(port);
    var d := Decimal(port);
    var m := MountPath(resourceName);
    var rest := d + "/" + m;
    assert OccursAt(rest, "/", |d|) by {
      assert rest[|d|..|d| + 1] == "/";
    }
    forall j: nat | j < |d| ensures !OccursAt(rest, "/", j) {
      assert rest[j] == d[j];
    }
    assert IndexOf(rest, "/") == Some(|d|);
    assert rest[..|d|] == d;
    assert rest[|d| + 1..] == m;
    assert rest[|d|..] == "/" + m;
  }

  /** The end-to-end timeout scenario: a page that never signals completion
      renders the diagnostic with status 500 whenever its URL is in the modelled
      fragment; outside the fragment the model claims no result at all. */
  lemma {:induction false} SilentPageTimesOut(cfg: Config, pathname: Option<string>, template: string,
                                            port: nat, pre: seq<Event>, serialized: string)
    requires forall k :: 0 <= k < |pre| ==> pre[k] != Finish
    ensures SessionUrl(cfg, pathname).Some? ==>
      RenderPage(cfg, pathname, template, port, pre + [Arm, TimerFires], serialized).result
         == Some(Rendered(TimeoutMessage, 500))
    ensures SessionUrl(cfg, pathname).None? ==>
      RenderPage(cfg, pathname, template, port, pre + [Arm, TimerFires], serialized).result.None?
  {
    var t := pre + [Arm, TimerFires];
    assert t[|pre|] == Arm && t[|pre| + 1] == TimerFires;
    TimerGuaranteesSettlement(t, |pre|, |pre| + 1, serialized);
    var a := FirstWhere(t, IsArm);
    assert IsArm(t[|pre|]);
    forall k | 0 <= k < |t|
      ensures t[k] != Finish
    {
      if k < |pre| {
        assert t[k] == pre[k];
      }
    }
    NoFinishMeansTimeout(t, a.value, serialized);
  }
}

=== FILE: text.dfy ===
/** String helpers with the meaning of the JavaScript string methods the module uses. */
module Text {
  import opened Wrappers

  /** `s.startsWith(p)`. */
  predicate StartsWith(s: string, p: string)
  {
    |p| <= |s| && s[..|p|] == p
  }

  /** The text without its first character when that is '/', as written otherwise:
      at most one leading '/' is removed (index.js:22-23). */
  function StripLeadingSlash(s: string): (r: string)
    ensures StartsWith(s, "/") <==> s == "/" + r
    ensures !StartsWith(s, "/") <==> r == s
  {
    if StartsWith(s, "/") then s[1..] else s
  }

  /** `pat` occurs in `s` at index `i`. */
  predicate OccursAt(s: string, pat: string, i: nat)
  {
    i + |pat| <= |s| && s[i..i + |pat|] == pat
  }

  /** The first index at or after `from` where `pat` occurs in `s`. */
  function FindFrom(s: string, pat: string, from: nat): (r: Option<nat>)
    ensures r.Some? ==> from <= r.value && OccursAt(s, pat, r.value)
    ensures forall j: nat :: from <= j && (r.None? || j < r.value) ==> !OccursAt(s, pat, j)
    decreases |s| + 1 - from
  {
    if |s| < from + |pat| then None
    else if OccursAt(s, pat, from) then Some(from)
    else FindFrom(s, pat, from + 1)
  }

  /** `s.indexOf(pat)`, with `None` for JavaScript's -1. */
  function IndexOf(s: string, pat: string): (r: Option<nat>)
    ensures r.Some? ==> OccursAt(s, pat, r.value)
    ensures forall j: nat :: (r.None? || j < r.value) ==> !OccursAt(s, pat, j)
  {
    FindFrom(s, pat, 0)
  }

  /** A pattern holding `c` cannot occur in a string free of `c`. */
  lemma {:induction false} AbsentCharBlocksPattern(s: string, pat: string, c: char, j: nat)
    requires c in pat && c !in s
    ensures !OccursAt(s, pat, j)
  {
  }

  predicate IsDigit(c: char)
  {
    '0' <= c <= '9'
  }

  function DigitChar(d: nat): (c: char)
    requires d < 10
    ensures IsDigit(c) && c as int - '0' as int == d
  {
    ('0' as int + d) as char
  }

  /** `n.toString()` for a non-negative integer: its decimal digits, without leading zeros. */
  function Decimal(n: nat): (r: string)
    ensures |r| >= 1
    ensures forall i :: 0 <= i < |r| ==> IsDigit(r[i])
    ensures r[0] == '0' ==> n == 0
    decreases n
  {
    if n < 10 then [DigitChar(n)] else Decimal(n / 10) + [DigitChar(n % 10)]
  }

  /** The value of a string of decimal digits, the inverse of `Decimal`. */
  function ParseDecimal(s: string): nat
    requires forall i :: 0 <= i < |s| ==> IsDigit(s[i])
  {
    if |s| == 0 then 0
    else
      assert IsDigit(s[|s| - 1]);
      ParseDecimal(s[..|s| - 1]) * 10 + (s[|s| - 1] as int - '0' as int)
  }

  lemma {:induction false} DecimalRoundTrip(n: nat)
    ensures ParseDecimal(Decimal(n)) == n
    decreases n
  {
    if n >= 10 {
      DecimalRoundTrip(n / 10);
      var r := Decimal(n);
      assert r[..|r| - 1] == Decimal(n / 10);
    }
  }
}

=== FILE: wrappers.dfy ===
/** A value that may be absent: JavaScript's `undefined`/`null` for an argument or
    field, or an input outside the fragment of a library the model covers. */
module Wrappers {

  datatype Option<+T> = None | Some(value: T) {

    /** The value, or `default` when absent (a JavaScript default parameter). */
    function GetOr(default: T): T
    {
      match this
      case Some(v) => v
      case None => default
    }
  }
}
